=== FILE: README.md ===
# Graph_Search — a Dafny model of its graph payload logic

Graph_Search asks a language model for terms related to a search query and
shows them as an interactive force-directed graph. This project models the
parts of it that are the program's own logic, as pure functions over
immutable data:

- **The payload builder** in `get_related_words` (`backend/graph_generator.py`).
  It takes the model's reply text and builds the `{nodes, links}` JSON. The
  reply is stripped and split on line feeds. The result is a star graph: the
  query node comes first, then one node per line, and one link runs from the
  query to each line. The reply is a parameter. The chat call that produces
  it is not modelled.
- **The backend helpers** in `backend/utils.py`. `sanitize_input` is a
  character filter. `get_env_variable` is a lookup in an environment, which
  is given as a map.
- **The decision rules of the graph view** in `src/components/KnowledgeGraph.js`:
  - which `data` the view accepts;
  - the error it shows, and what is on the canvas afterwards;
  - what it draws: one line per link, one circle and one label per node,
    with the origin node highlighted;
  - the drag handlers, as a pin/unpin state machine on the simulation's nodes.

Modules, one per concern:

| file | module | contents |
|---|---|---|
| wrappers.dfy | `Wrappers` | `Option`, `Result` |
| chars.dfy | `Chars` | `str.isspace` and `str.isalnum` on one character |
| text.dfy | `Text` | `str.strip()`, `str.split('\n')`, `'\n'.join`, and their round trips |
| utils.dfy | `Utils` | `sanitize_input`, `get_env_variable` |
| graph.dfy | `Graph` | `Node`, `Link`, `Payload` (the JSON shape) |
| graph_generator.dfy | `GraphGenerator` | the payload builder |
| knowledge_graph.dfy | `KnowledgeGraph` | view acceptance, drawing, errors, drag handlers |
| pipeline.dfy | `Pipeline` | what the view does with a built payload |

Behaviour of the code that the model keeps:

- An empty `links` array is accepted as long as there is at least one node.
- The origin node is found by comparing ids with `nodes[0].id`. Any node that
  shares the first node's id is highlighted too.
- Drag start reheats the simulation whenever no other drag is active
  (`!event.active`).
- When `data` or the `svg` element is missing, the effect returns before the
  canvas is cleared. The previous drawing stays.
- Every label sits at a constant offset of 12 from its node.
- A link whose endpoint names no node makes the link force raise
  `node not found: <id>` for the first such endpoint. The view shows that
  message over a cleared canvas.
- The builder neither filters nor deduplicates reply lines. Blank reply lines
  give empty ids, and a line equal to the query repeats the query's id.

## Model

| member | source | states |
|---|---|---|
| Chars.IsSpace | backend/utils.py:14 | `str.isspace` on one character, which is also the set `strip()` removes: exactly Python's whitespace characters (tab to carriage return, the four separators U+1C–1F, space, U+85, U+A0, U+1680, U+2000–200A, U+2028, U+2029, U+202F, U+205F, U+3000) |
| Chars.IsAlnum | backend/utils.py:14 | `str.isalnum` on one character, over the ranges it lists; its coverage is stated under "Left out" |
| Text.Strip | backend/graph_generator.py:17 | `strip()` returns a result no longer than its input that neither starts nor ends with whitespace |
| Text.StripRemovesOnlyWhitespace | backend/graph_generator.py:17 | `strip()` keeps a contiguous piece of its input, and everything it cuts off on either side is whitespace |
| Text.StripIdempotent | backend/graph_generator.py:17-19 | stripping a second time changes nothing. So `word.strip()` leaves the reply's outer ends, and a one-line reply, as the reply's own `strip()` left them; inner lines such as `"a "` in `"a \nb"` are still trimmed by it |
| Text.Split | backend/graph_generator.py:17 | `split('\n')` yields one piece more than there are line feeds (so at least one), and no piece contains a line feed |
| Text.JoinSplit | backend/graph_generator.py:17 | joining the pieces of a split with `'\n'` gives the split string back |
| Text.SplitJoin | backend/graph_generator.py:17 | splitting a `'\n'`-join of line-feed-free pieces gives exactly those pieces back |
| GraphGenerator.ReplyLines | backend/graph_generator.py:17 | the lines of the stripped reply: at least one, none containing a line feed, and together they rejoin to the stripped reply |
| GraphGenerator.GetRelatedWords | backend/graph_generator.py:17-22 | nodes = lines + 1 and links = lines. The first node's id and label are the unstripped query. Node k+1's id and label, and link k's target, are the stripped line k. Every link starts at the query |
| GraphGenerator.GeneratedLinksResolve | backend/graph_generator.py:19-20 | every link of a built payload starts at the first node and ends at the id of some node of the payload |
| GraphGenerator.ReplyLinesOfJoin | backend/graph_generator.py:17 | a reply that is a join of line-feed-free lines, and that stripping leaves alone, has exactly those lines |
| GraphGenerator.GeneratedKeepsEveryLine | backend/graph_generator.py:17-20 | no filtering or deduplication: a reply made of already-stripped lines yields exactly those lines as node ids, in order |
| GraphGenerator.BlankAndRepeatedLinesKept | backend/graph_generator.py:17-20 | a blank middle line becomes a node with an empty id, and a line equal to the query gives a second node with the query's id |
| Utils.Kept | backend/utils.py:14 | the filter condition of `sanitize_input`: the character is alphanumeric or whitespace |
| Utils.SanitizeInput | backend/utils.py:11-14 | every output character is alphanumeric or whitespace, and the output is no longer than the input |
| Utils.SanitizeCounts | backend/utils.py:14 | each alphanumeric or whitespace character occurs in the output exactly as often as in the input; every other character does not occur |
| Utils.SanitizeIsSubsequence | backend/utils.py:14 | the output is an order-preserving subsequence of the input |
| Utils.SanitizeIdentity | backend/utils.py:14 | the output equals the input exactly when every input character is alphanumeric or whitespace |
| Utils.SanitizeIdempotent | backend/utils.py:14 | sanitising twice is the same as sanitising once |
| Utils.SanitizeConcat | backend/utils.py:14 | sanitising distributes over concatenation |
| Utils.GetEnvVariable | backend/utils.py:3-9 | succeeds exactly when the variable is set, with its value; otherwise fails with an `EnvironmentError` whose message contains the variable name |
| KnowledgeGraph.IsValidData | src/components/KnowledgeGraph.js:31-33 | the structure check: `nodes` and `links` are both present and `nodes` is not empty |
| KnowledgeGraph.NodeCircle | src/components/KnowledgeGraph.js:56-57 | a node's circle is highlighted (radius 15, fill `#ff0000`) exactly when its id equals the first node's id; otherwise it has radius 10 and fill `#69b3a2` |
| KnowledgeGraph.Draw | src/components/KnowledgeGraph.js:42-69 | one line per link, one circle and one label per node, each in payload order. Each label's text is its node's label, with offset 12. Circle k is highlighted exactly when node k shares the first node's id. Otherwise it gets the plain radius and fill |
| KnowledgeGraph.DrawIsFaithful | src/components/KnowledgeGraph.js:42-69 | the payload can be read back from the drawing (circle ids, label texts, line endpoints), so drawing loses and reorders nothing |
| KnowledgeGraph.OriginHighlighted | src/components/KnowledgeGraph.js:56-57 | the first node is always highlighted; with distinct ids every other node gets the plain style |
| KnowledgeGraph.Dangling | src/components/KnowledgeGraph.js:37 | the endpoint the link force rejects (`node not found: <id>`) is absent exactly when every link's source and target name a node. When present, it names no node and is the first such endpoint: every earlier link resolves, and in its own link the source is reported before the target |
| KnowledgeGraph.RenderError | src/components/KnowledgeGraph.js:90-92 | the error message shown for a failure during setup ends with that failure's own message |
| KnowledgeGraph.Render | src/components/KnowledgeGraph.js:8-94 | the error is cleared exactly when data and canvas are present, the payload passes the structure check and every link names a node. Missing data or canvas shows the missing-data message and leaves the canvas untouched. An invalid payload shows the structure-check message over a cleared canvas. A link to an unknown id shows `node not found: ` followed by the first unresolved endpoint, over a cleared canvas. Success puts exactly the payload's drawing on the canvas: one circle and label per node and one line per link, with the first circle highlighted |
| KnowledgeGraph.DanglingLinkRejected | src/components/KnowledgeGraph.js:37 | a link to an id no node carries is reported by that id, and the canvas is left cleared |
| KnowledgeGraph.SourceReportedFirst | src/components/KnowledgeGraph.js:37 | when neither endpoint of a link names a node, the error names the source |
| KnowledgeGraph.EmptyLinksAccepted | src/components/KnowledgeGraph.js:31-33 | a payload with nodes and an empty `links` array is accepted and drawn without error |
| KnowledgeGraph.DragStarted | src/components/KnowledgeGraph.js:97-101 | pins the dragged node at its current position and changes no other node. The alpha target becomes 0.3 and the simulation is restarted only when no other drag is active |
| KnowledgeGraph.Dragged | src/components/KnowledgeGraph.js:103-106 | moves the dragged node's pin to the pointer. Its simulated position, every other node and the simulation's settings are unchanged |
| KnowledgeGraph.DragEnded | src/components/KnowledgeGraph.js:108-112 | releases the dragged node's pin to null and leaves every other node unchanged. The alpha target is reset to 0 only when no other drag is active |
| KnowledgeGraph.OnDrag | src/components/KnowledgeGraph.js:114-117 | dispatches an event to its handler by phase: start pins the node at its position, drag pins it at the pointer and leaves the energy settings alone, end releases the pin. Only the dragged node changes, and only start can restart the simulation |
| KnowledgeGraph.DragKeepsPinsPaired | src/components/KnowledgeGraph.js:96-112 | no handler leaves a node with only one of `fx`, `fy` set |
| KnowledgeGraph.MovesFollowPointer | src/components/KnowledgeGraph.js:103-106 | while the pointer is held, the move handlers leave the node pinned at the latest pointer position (or where it was before the first move), and change nothing else |
| KnowledgeGraph.LoneGestureReleases | src/components/KnowledgeGraph.js:96-118 | over a complete drag with no other drag active, the handlers release the node's pin and leave its position and every other node as before. They restart the simulation once and set its alpha target back to 0. The ticks that the restart sets off move nodes, and they are not modelled |
| Pipeline.GeneratedPayloadIsDrawn | backend/graph_generator.py:17-22 | every payload the builder produces passes the view's check. Its links all name nodes, so the link force accepts it and it is drawn without error, with one circle per reply line plus the query's. The highlighted circles are exactly the nodes whose id is the query, the first among them |

## Left out

- The OpenAI client, the chat call and the re-raise of its errors (`backend/graph_generator.py` lines 2-15 and 23-25). They are a foreign network call. The reply text is a parameter instead.
- The Flask route, CORS, status codes and the OPTIONS handler in `backend/app.py`. They are HTTP plumbing over a framework.
- `handleSearch` in `src/components/App.js`. It is an asynchronous fetch with URL encoding and React state, all I/O and UI plumbing.
- The D3 force simulation, apart from the link force's lookup of link endpoints by node id: its forces, its physics and the alpha decay that eventually stops it. Also left out are SVG attributes, the tick re-projection of positions and console logging. These are library internals and floating-point layout. `restart()` is modelled only as a counter of restarts.
- Chars.IsAlnum: agrees with Python's `str.isalnum` (Unicode 15.0) only on the ranges it lists, and is false on every other character. The listed ranges are ASCII and Latin-1; Roman numerals; circled, parenthesized and full-stop digits; the CJK iteration marks, closing mark, ideographic zero, Hangzhou numerals, vertical kana repeat marks and masu mark; hiragana, katakana and the katakana phonetic extensions; CJK unified ideographs A to H, with the compatibility ideographs and their supplement; and full-width digits and letters and half-width katakana. Letters and numbers of other scripts, for example Greek, Cyrillic, Hangul, Yi or fractions such as U+215F, are taken as not alphanumeric, so the model removes them where the source keeps them. `Chars.IsSpace` follows Python's whitespace set exactly.
- KnowledgeGraph.Render: the one library failure modelled is the link force's `node not found`, raised while the simulation is built and before any mark is drawn. Failures that do not come from the data, such as a missing library or a DOM error, are not modelled. Neither is a failure midway through drawing, which would leave some marks on the canvas.
- KnowledgeGraph.DragStarted: the event's subject is taken to be an index into the simulation's nodes, because D3 drags the node bound to the dragged circle. Pointer coordinates are integers rather than floating-point numbers.

=== FILE: chars.dfy ===
/** Character classes of Python's `str` methods, on single characters. */
module Chars {

  /** `str.isspace` on one character: the characters Python classifies as
      whitespace (bidirectional class WS, B or S, or category Zs). This is also
      the set `str.strip()` removes when called without arguments. */
  predicate IsSpace(c: char)
  {
    || ('\t' <= c <= '\r')                // tab, line feed, vertical tab, form feed, carriage return
    || ('\U{1C}' <= c <= '\U{1F}')        // file, group, record and unit separators
    || c == ' '
    || c == '\U{85}' || c == '\U{A0}' || c == '\U{1680}'
    || ('\U{2000}' <= c <= '\U{200A}')
    || c == '\U{2028}' || c == '\U{2029}' || c == '\U{202F}' || c == '\U{205F}'
    || c == '\U{3000}'                    // ideographic space
  }

  /** `str.isalnum` on one character (letter or number in the Unicode 15.0
      database that Python 3.12 uses), exact on the following and false on
      every other character: ASCII and Latin-1; the CJK symbols that count as
      letters or numbers (iteration marks, the closing mark, ideographic zero,
      Hangzhou numerals, the vertical kana repeat marks, the masu mark); hiragana, katakana and the katakana
      phonetic extensions; CJK unified ideographs in every extension up to H,
      and the compatibility ideographs; circled, parenthesized and
      full-stop digits and Roman numerals; full-width digits and Latin
      letters and half-width katakana. */
  predicate IsAlnum(c: char)
  {
    || ('0' <= c <= '9') || ('A' <= c <= 'Z') || ('a' <= c <= 'z')
    // Latin-1: ordinal indicators, superscripts, micro sign, fractions, letters
    || c == '\U{AA}' || c == '\U{B2}' || c == '\U{B3}' || c == '\U{B5}'
    || c == '\U{B9}' || c == '\U{BA}' || ('\U{BC}' <= c <= '\U{BE}')
    || ('\U{C0}' <= c <= '\U{D6}') || ('\U{D8}' <= c <= '\U{F6}') || ('\U{F8}' <= c <= '\U{FF}')
    // Roman numerals; circled, parenthesized and full-stop digits
    || ('\U{2160}' <= c <= '\U{2189}')
    || ('\U{2460}' <= c <= '\U{249B}') || ('\U{24EA}' <= c <= '\U{24FF}')
    // iteration marks, closing mark, ideographic zero, Hangzhou numerals, masu mark
    || ('\U{3005}' <= c <= '\U{3007}') || ('\U{3021}' <= c <= '\U{3029}')
    || ('\U{3031}' <= c <= '\U{3035}') || ('\U{3038}' <= c <= '\U{303C}')
    // hiragana and katakana, with their iteration and length marks
    || ('\U{3041}' <= c <= '\U{3096}') || ('\U{309D}' <= c <= '\U{309F}')
    || ('\U{30A1}' <= c <= '\U{30FA}') || ('\U{30FC}' <= c <= '\U{30FF}')
    || ('\U{31F0}' <= c <= '\U{31FF}')
    // CJK unified ideographs: extension A and the basic block
    || ('\U{3400}' <= c <= '\U{4DBF}') || ('\U{4E00}' <= c <= '\U{9FFF}')
    // CJK compatibility ideographs
    || ('\U{F900}' <= c <= '\U{FA6D}') || ('\U{FA70}' <= c <= '\U{FAD9}')
    // full-width digits and Latin letters, half-width katakana
    || ('\U{FF10}' <= c <= '\U{FF19}') || ('\U{FF21}' <= c <= '\U{FF3A}')
    || ('\U{FF41}' <= c <= '\U{FF5A}') || ('\U{FF66}' <= c <= '\U{FF9F}')
    // CJK unified ideographs, extensions B to H, and the compatibility supplement
    || ('\U{20000}' <= c <= '\U{2A6DF}') || ('\U{2A700}' <= c <= '\U{2B739}')
    || ('\U{2B740}' <= c <= '\U{2B81D}') || ('\U{2B820}' <= c <= '\U{2CEA1}')
    || ('\U{2CEB0}' <= c <= '\U{2EBE0}') || ('\U{2F800}' <= c <= '\U{2FA1D}')
    || ('\U{30000}' <= c <= '\U{3134A}') || ('\U{31350}' <= c <= '\U{323AF}')
  }
}

=== FILE: graph.dfy ===
/** The JSON shape exchanged between the backend and the graph view:
    `{"nodes": [{"id", "label"}], "links": [{"source", "target"}]}`. */
module Graph {

  /** `caption` is the JSON key `label` (a reserved word in Dafny). */
  datatype Node = Node(id: string, caption: string)

  /** A link names its endpoints by node id. */
  datatype Link = Link(source: string, target: string)

  datatype Payload = Payload(nodes: seq<Node>, links: seq<Link>)

  /** Some node of `nodes` has id `id`. */
  predicate HasNode(nodes: seq<Node>, id: string)
  {
    exists k :: 0 <= k < |nodes| && nodes[k].id == id
  }

  /** Every link endpoint is the id of a node of the payload. */
  predicate LinksResolve(p: Payload)
  {
    forall k :: 0 <= k < |p.links| ==> HasNode(p.nodes, p.links[k].source) && HasNode(p.nodes, p.links[k].target)
  }
}

=== FILE: graph_generator.dfy ===
/** The payload construction of `get_related_words`: the language model's
    reply (a parameter here; the chat call that produces it is not modelled)
    becomes a star graph centred on the query. */
module GraphGenerator {
  import opened Text
  import opened Graph

  /** The lines of the reply: the stripped reply split on line feeds. There is
      always at least one, none contains a line feed, and joining them gives
      the stripped reply back. */
  function ReplyLines(reply: string): (lines: seq<string>)
    ensures |lines| >= 1
    ensures forall k :: 0 <= k < |lines| ==> '\n' !in lines[k]
    ensures Join(lines) == Strip(reply)
  {
    JoinSplit(Strip(reply));
    Split(Strip(reply))
  }

  /** Each line of a list, stripped. */
  function StripEach(lines: seq<string>): (words: seq<string>)
    ensures |words| == |lines|
    ensures forall k :: 0 <= k < |lines| ==> words[k] == Strip(lines[k])
  {
    seq(|lines|, k requires 0 <= k < |lines| => Strip(lines[k]))
  }

  /** The payload `get_related_words` returns: the query node first, then one
      node per reply line in order, and one link from the query to each line. */
  function GetRelatedWords(query: string, reply: string): (p: Payload)
    ensures |p.nodes| == |ReplyLines(reply)| + 1
    ensures |p.links| == |ReplyLines(reply)|
    ensures p.nodes[0].id == query && p.nodes[0].caption == query
    ensures forall k :: 0 <= k < |p.links| ==>
              && p.nodes[k + 1].id == Strip(ReplyLines(reply)[k])
              && p.nodes[k + 1].caption == p.nodes[k + 1].id
              && p.links[k].source == query
              && p.links[k].target == p.nodes[k + 1].id
  {
    var words := StripEach(ReplyLines(reply));
    var nodes := [Node(query, query)] + seq(|words|, k requires 0 <= k < |words| => Node(words[k], words[k]));
    var links := seq(|words|, k requires 0 <= k < |words| => Link(query, words[k]));
    Payload(nodes, links)
  }

  /** Every link of a built payload starts at the first node and ends at a
      node of the payload, so nothing dangles. */
  lemma GeneratedLinksResolve(query: string, reply: string)
    ensures var p := GetRelatedWords(query, reply);
            && LinksResolve(p)
            && forall k :: 0 <= k < |p.links| ==> p.links[k].source == p.nodes[0].id
  {
    var p := GetRelatedWords(query, reply);
    forall k | 0 <= k < |p.links|
      ensures HasNode(p.nodes, p.links[k].source) && HasNode(p.nodes, p.links[k].target)
    {
      assert p.nodes[0].id == p.links[k].source;
      assert p.nodes[k + 1].id == p.links[k].target;
    }
  }

  /** A reply made of line-feed-free lines that stripping leaves alone has
      exactly those lines. */
  lemma ReplyLinesOfJoin(lines: seq<string>)
    requires |lines| >= 1
    requires forall k :: 0 <= k < |lines| ==> '\n' !in lines[k]
    requires Strip(Join(lines)) == Join(lines)
    ensures ReplyLines(Join(lines)) == lines
  {
    SplitJoin(lines);
  }

  /** No filtering and no deduplication: for a reply made of already-stripped
      lines, the builder emits exactly those lines as nodes, in order, blank
      lines and repeats included. */
  lemma GeneratedKeepsEveryLine(query: string, lines: seq<string>)
    requires |lines| >= 1
    requires forall k :: 0 <= k < |lines| ==> '\n' !in lines[k] && Strip(lines[k]) == lines[k]
    requires Strip(Join(lines)) == Join(lines)
    ensures var p := GetRelatedWords(query, Join(lines));
            && |p.nodes| == |lines| + 1
            && forall k :: 0 <= k < |lines| ==> p.nodes[k + 1].id == lines[k]
  {
    ReplyLinesOfJoin(lines);
    var p := GetRelatedWords(query, Join(lines));
    forall k | 0 <= k < |lines|
      ensures p.nodes[k + 1].id == lines[k]
    {
      assert p.nodes[k + 1].id == Strip(lines[k]);
    }
  }

  /** The three lines `query`, a blank line and `other` join to a reply that
      stripping leaves alone. */
  lemma ThreeLineReply(query: string, other: string)
    requires query != [] && Strip(query) == query && '\n' !in query
    requires other != [] && Strip(other) == other && '\n' !in other
    ensures Join([query, "", other]) == query + "\n\n" + other
    ensures Strip(query + "\n\n" + other) == query + "\n\n" + other
  {
    var reply := query + "\n\n" + other;
    JoinCons("", [other]);
    JoinCons(query, ["", other]);
    assert [query] + ["", other] == [query, "", other];
    assert reply[0] == query[0];
    assert reply[|reply| - 1] == other[|other| - 1];
    StripTrimmed(reply);
  }

  /** A reply whose first line repeats the query and whose middle line is
      blank yields a second node with the query's id and a node with an empty
      id. */
  lemma BlankAndRepeatedLinesKept(query: string, other: string)
    requires query != [] && Strip(query) == query && '\n' !in query
    requires other != [] && Strip(other) == other && '\n' !in other
    ensures var p := GetRelatedWords(query, query + "\n\n" + other);
            && |p.nodes| == 4
            && p.nodes[1].id == p.nodes[0].id == query
            && p.nodes[2].id == ""
            && p.nodes[3].id == other
  {
    var lines := [query, "", other];
    var reply := query + "\n\n" + other;
    ThreeLineReply(query, other);
    StripTrimmed(lines[1]);
    forall k | 0 <= k < |lines|
      ensures '\n' !in lines[k] && Strip(lines[k]) == lines[k]
    {
      if k == 0 {
        assert lines[k] == query;
      } else if k == 1 {
        assert lines[k] == [];
      } else {
        assert lines[k] == other;
      }
    }
    GeneratedKeepsEveryLine(query, lines);
    var p := GetRelatedWords(query, reply);
    assert p.nodes[1].id == lines[0];
    assert p.nodes[2].id == lines[1];
    assert p.nodes[3].id == lines[2];
  }
}

=== FILE: knowledge_graph.dfy ===
/** The decision logic of the `KnowledgeGraph` view: which `data` it accepts,
    what it draws for a payload (one line per link, one circle and one label
    per node, the origin node highlighted), what error it shows, and how the
    drag handlers pin and release nodes. The force layout itself (apart from
    the link force rejecting a link to an unknown node id), SVG
    attributes and tick re-projection are not modelled. */
module KnowledgeGraph {
  import opened Wrappers
  import opened Graph

  /** The `data` prop as parsed JSON: either array may be absent. */
  datatype GraphData = GraphData(nodes: Option<seq<Node>>, links: Option<seq<Link>>)

  /** The payload passes the structure check of the effect: both arrays are
      present and there is at least one node. */
  predicate IsValidData(d: GraphData)
  {
    d.nodes.Some? && d.links.Some? && |d.nodes.value| > 0
  }

  const OriginRadius: int := 15
  const NodeRadius: int := 10
  const OriginFill: string := "#ff0000"
  const NodeFill: string := "#69b3a2"
  /** Horizontal offset of every label from its node. */
  const LabelDx: int := 12

  /** One `line` mark, bound to a link. */
  datatype LineMark = LineMark(source: string, target: string)
  /** One `circle` mark, bound to a node. */
  datatype CircleMark = CircleMark(id: string, radius: int, fill: string)
  /** One `text` mark, bound to a node. */
  datatype LabelMark = LabelMark(text: string, dx: int)

  /** The marks on the canvas, each group in the order of its data. */
  datatype Drawing = Drawing(lines: seq<LineMark>, circles: seq<CircleMark>, labels: seq<LabelMark>)

  /** The canvas right after it is cleared. */
  const Cleared := Drawing([], [], [])

  /** The circle has the origin node's radius and fill. */
  predicate Highlighted(c: CircleMark)
  {
    c.radius == OriginRadius && c.fill == OriginFill
  }

  /** The circle drawn for node `n` when the first node of the payload is
      `origin`: the node is compared with the origin by id, not by position. */
  function NodeCircle(origin: Node, n: Node): (c: CircleMark)
    ensures c.id == n.id
    ensures Highlighted(c) <==> n.id == origin.id
    ensures !Highlighted(c) ==> c.radius == NodeRadius && c.fill == NodeFill
  {
    if n.id == origin.id then CircleMark(n.id, OriginRadius, OriginFill)
    else CircleMark(n.id, NodeRadius, NodeFill)
  }

  /** The marks drawn for a payload with at least one node: one line per link,
      one circle and one label per node, in payload order; a circle is
      highlighted exactly when its node shares the first node's id. */
  function Draw(nodes: seq<Node>, links: seq<Link>): (d: Drawing)
    requires |nodes| > 0
    ensures |d.lines| == |links| && |d.circles| == |nodes| && |d.labels| == |nodes|
    ensures forall k :: 0 <= k < |links| ==> d.lines[k].source == links[k].source && d.lines[k].target == links[k].target
    ensures forall k :: 0 <= k < |nodes| ==> d.circles[k].id == nodes[k].id
    ensures forall k :: 0 <= k < |nodes| ==> d.labels[k].text == nodes[k].caption && d.labels[k].dx == LabelDx
    ensures forall k :: 0 <= k < |nodes| ==> (Highlighted(d.circles[k]) <==> nodes[k].id == nodes[0].id)
    ensures forall k :: 0 <= k < |nodes| ==> d.circles[k] == NodeCircle(nodes[0], nodes[k])
  {
    Drawing(
      seq(|links|, k requires 0 <= k < |links| => LineMark(links[k].source, links[k].target)),
      seq(|nodes|, k requires 0 <= k < |nodes| => NodeCircle(nodes[0], nodes[k])),
      seq(|nodes|, k requires 0 <= k < |nodes| => LabelMark(nodes[k].caption, LabelDx)))
  }

  /** Reads the payload back off a drawing: node ids from the circles, node
      labels from the label marks, link endpoints from the lines. */
  function PayloadOf(d: Drawing): (p: Option<Payload>)
  {
    if |d.circles| != |d.labels| then None
    else
      Some(Payload(
        seq(|d.circles|, k requires 0 <= k < |d.circles| => Node(d.circles[k].id, d.labels[k].text)),
        seq(|d.lines|, k requires 0 <= k < |d.lines| => Link(d.lines[k].source, d.lines[k].target))))
  }

  /** The drawing loses nothing: the payload can be read back from it. */
  lemma DrawIsFaithful(nodes: seq<Node>, links: seq<Link>)
    requires |nodes| > 0
    ensures PayloadOf(Draw(nodes, links)) == Some(Payload(nodes, links))
  {
    var d := Draw(nodes, links);
    var p := PayloadOf(d).value;
    assert p.nodes == nodes by {
      forall k | 0 <= k < |nodes| ensures p.nodes[k] == nodes[k] {
        assert p.nodes[k] == Node(d.circles[k].id, d.labels[k].text);
      }
    }
    assert p.links == links by {
      forall k | 0 <= k < |links| ensures p.links[k] == links[k] {
        assert p.links[k] == Link(d.lines[k].source, d.lines[k].target);
      }
    }
  }

  /** The first node is always highlighted; when node ids are distinct it is
      the only highlighted one, and every other node gets the plain style. */
  lemma OriginHighlighted(nodes: seq<Node>, links: seq<Link>)
    requires |nodes| > 0
    ensures Highlighted(Draw(nodes, links).circles[0])
    ensures (forall i, j :: 0 <= i < j < |nodes| ==> nodes[i].id != nodes[j].id) ==>
              forall k :: 0 < k < |nodes| ==>
                Draw(nodes, links).circles[k] == CircleMark(nodes[k].id, NodeRadius, NodeFill)
  {
    var d := Draw(nodes, links);
    if forall i, j :: 0 <= i < j < |nodes| ==> nodes[i].id != nodes[j].id {
      forall k | 0 < k < |nodes|
        ensures d.circles[k] == CircleMark(nodes[k].id, NodeRadius, NodeFill)
      {
        assert nodes[0].id != nodes[k].id;
      }
    }
  }

  /** The view's state: the error message shown above the canvas, and the
      canvas contents (`None` while the `svg` element is not mounted). */
  datatype View = View(error: Option<string>, svg: Option<Drawing>)

  const MissingMessage: string := "データまたはSVG要素が見つかりません"
  const InvalidDataMessage: string := "無効なデータ構造です"
  const RenderErrorPrefix: string := "グラフの描画中にエラーが発生しました: "

  /** The message shown for an error caught during setup; it ends with the
      error's own message. */
  function RenderError(message: string): (e: string)
    ensures |e| > |message| && e[|e| - |message|..] == message
  {
    RenderErrorPrefix + message
  }

  /** The message `forceLink` raises for a link endpoint that names no node. */
  const NodeNotFoundPrefix: string := "node not found: "

  /** Both endpoints of `l` name nodes of `nodes`. */
  predicate Resolves(nodes: seq<Node>, l: Link)
  {
    HasNode(nodes, l.source) && HasNode(nodes, l.target)
  }

  /** `id` is the endpoint of `l` that `forceLink` reports: the source when it
      names no node, otherwise the target when that names no node. */
  predicate RejectedEndpoint(nodes: seq<Node>, l: Link, id: string)
  {
    if !HasNode(nodes, l.source) then id == l.source
    else !HasNode(nodes, l.target) && id == l.target
  }

  /** The endpoint `forceLink` rejects when the simulation is built: the first
      one, in link order and source before target, that is not the id of a
      node. `None` when every endpoint names a node. */
  function Dangling(nodes: seq<Node>, links: seq<Link>): (r: Option<string>)
    ensures r.None? <==> LinksResolve(Payload(nodes, links))
    ensures r.Some? ==> !HasNode(nodes, r.value)
    ensures r.Some? ==> exists k :: 0 <= k < |links| && RejectedEndpoint(nodes, links[k], r.value)
                                    && forall j :: 0 <= j < k ==> Resolves(nodes, links[j])
  {
    if links == [] then None
    else if !HasNode(nodes, links[0].source) then Some(links[0].source)
    else if !HasNode(nodes, links[0].target) then Some(links[0].target)
    else
      var r := Dangling(nodes, links[1..]);
      assert LinksResolve(Payload(nodes, links)) <==> LinksResolve(Payload(nodes, links[1..])) by {
        assert forall k :: 0 < k < |links| ==> links[k] == links[1..][k - 1];
      }
      if r.Some? then
        var k :| 0 <= k < |links[1..]| && RejectedEndpoint(nodes, links[1..][k], r.value)
                 && forall j :: 0 <= j < k ==> Resolves(nodes, links[1..][j]);
        assert links[1..][k] == links[k + 1];
        assert forall j :: 0 <= j < k + 1 ==> Resolves(nodes, links[j]) by {
          forall j | 0 <= j < k + 1 ensures Resolves(nodes, links[j]) {
            if j > 0 {
              assert links[j] == links[1..][j - 1];
            }
          }
        }
        r
      else r
  }

  /** One run of the view's effect for `data`. Missing data or a missing
      canvas leaves the canvas untouched. A payload that fails the structure
      check, or that has a link naming an unknown node id (which `forceLink`
      rejects while the simulation is built), shows the caught message over a
      cleared canvas. Only a complete setup clears the error and draws the
      payload. */
  function Render(data: Option<GraphData>, view: View): (v: View)
    ensures v.error.None? <==>
              data.Some? && view.svg.Some? && IsValidData(data.value)
              && LinksResolve(Payload(data.value.nodes.value, data.value.links.value))
    ensures data.None? || view.svg.None? ==> v == View(Some(MissingMessage), view.svg)
    ensures data.Some? && view.svg.Some? && !IsValidData(data.value) ==>
              v == View(Some(RenderError(InvalidDataMessage)), Some(Cleared))
    ensures data.Some? && view.svg.Some? && IsValidData(data.value)
            && !LinksResolve(Payload(data.value.nodes.value, data.value.links.value)) ==>
              v == View(Some(RenderError(NodeNotFoundPrefix
                             + Dangling(data.value.nodes.value, data.value.links.value).value)), Some(Cleared))
    ensures v.error.None? ==>
              && v.svg == Some(Draw(data.value.nodes.value, data.value.links.value))
              && |v.svg.value.circles| == |v.svg.value.labels| == |data.value.nodes.value|
              && |v.svg.value.lines| == |data.value.links.value|
              && Highlighted(v.svg.value.circles[0])
  {
    if data.None? || view.svg.None? then
      View(Some(MissingMessage), view.svg)
    else if !IsValidData(data.value) then
      View(Some(RenderError(InvalidDataMessage)), Some(Cleared))
    else
      var nodes, links := data.value.nodes.value, data.value.links.value;
      match Dangling(nodes, links)
      case Some(id) => View(Some(RenderError(NodeNotFoundPrefix + id)), Some(Cleared))
      case None => View(None, Some(Draw(nodes, links)))
  }

  /** An empty `links` array is accepted as long as there is a node. */
  lemma EmptyLinksAccepted(nodes: seq<Node>, prior: Drawing)
    requires |nodes| > 0
    ensures Render(Some(GraphData(Some(nodes), Some([]))), View(None, Some(prior))).error.None?
  {
  }

  /** A link to an id no node carries is rejected: the error names that id and
      the canvas is left cleared. */
  lemma DanglingLinkRejected(nodes: seq<Node>, source: string, target: string, prior: Drawing)
    requires |nodes| > 0 && HasNode(nodes, source) && !HasNode(nodes, target)
    ensures Render(Some(GraphData(Some(nodes), Some([Link(source, target)]))), View(None, Some(prior)))
            == View(Some(RenderError(NodeNotFoundPrefix + target)), Some(Cleared))
  {
    assert Dangling(nodes, [Link(source, target)]) == Some(target);
  }

  /** When both endpoints of a link are unknown, the source is the one
      reported. */
  lemma SourceReportedFirst(nodes: seq<Node>, source: string, target: string, prior: Drawing)
    requires |nodes| > 0 && !HasNode(nodes, source)
    ensures Render(Some(GraphData(Some(nodes), Some([Link(source, target)]))), View(None, Some(prior)))
            == View(Some(RenderError(NodeNotFoundPrefix + source)), Some(Cleared))
  {
    assert Dangling(nodes, [Link(source, target)]) == Some(source);
  }

  /** A node as the force simulation holds it: its simulated position and its
      pin (`fx`, `fy`), which is `null` while physics controls the node. */
  datatype SimNode = SimNode(x: int, y: int, fx: Option<int>, fy: Option<int>)

  /** The simulation state the drag handlers touch: its nodes, its alpha
      target and how many times it was restarted. */
  datatype Simulation = Simulation(nodes: seq<SimNode>, alphaTarget: real, restarts: nat)

  /** The alpha target a drag start reheats the simulation to. */
  const ReheatTarget: real := 0.3

  datatype Phase = Start | Move | End

  /** A drag event: its phase, the index of the dragged node, the number of
      other drag gestures in progress, and the pointer position. */
  datatype DragEvent = DragEvent(phase: Phase, subject: nat, active: nat, x: int, y: int)

  /** Both pin coordinates are set, or neither is. */
  predicate PinsPaired(n: SimNode)
  {
    n.fx.Some? <==> n.fy.Some?
  }

  /** `dragstarted`: pins the node where it currently is, and reheats and
      restarts the simulation unless another drag is already in progress. */
  function DragStarted(sim: Simulation, e: DragEvent): (s: Simulation)
    requires e.subject < |sim.nodes|
    ensures |s.nodes| == |sim.nodes|
    ensures var n := sim.nodes[e.subject];
            s.nodes[e.subject] == SimNode(n.x, n.y, Some(n.x), Some(n.y))
    ensures forall k :: 0 <= k < |sim.nodes| && k != e.subject ==> s.nodes[k] == sim.nodes[k]
    ensures e.active == 0 ==> s.alphaTarget == ReheatTarget && s.restarts == sim.restarts + 1
    ensures e.active != 0 ==> s.alphaTarget == sim.alphaTarget && s.restarts == sim.restarts
  {
    var n := sim.nodes[e.subject];
    var pinned := sim.nodes[e.subject := n.(fx := Some(n.x), fy := Some(n.y))];
    if e.active == 0 then Simulation(pinned, ReheatTarget, sim.restarts + 1)
    else sim.(nodes := pinned)
  }

  /** `dragged`: moves the node's pin to the pointer; nothing else changes. */
  function Dragged(sim: Simulation, e: DragEvent): (s: Simulation)
    requires e.subject < |sim.nodes|
    ensures |s.nodes| == |sim.nodes|
    ensures var n := sim.nodes[e.subject];
            s.nodes[e.subject] == SimNode(n.x, n.y, Some(e.x), Some(e.y))
    ensures forall k :: 0 <= k < |sim.nodes| && k != e.subject ==> s.nodes[k] == sim.nodes[k]
    ensures s.alphaTarget == sim.alphaTarget && s.restarts == sim.restarts
  {
    var n := sim.nodes[e.subject];
    sim.(nodes := sim.nodes[e.subject := n.(fx := Some(e.x), fy := Some(e.y))])
  }

  /** `dragended`: releases the node's pin, and lets the simulation cool
      unless another drag is still in progress. */
  function DragEnded(sim: Simulation, e: DragEvent): (s: Simulation)
    requires e.subject < |sim.nodes|
    ensures |s.nodes| == |sim.nodes|
    ensures var n := sim.nodes[e.subject];
            s.nodes[e.subject] == SimNode(n.x, n.y, None, None)
    ensures forall k :: 0 <= k < |sim.nodes| && k != e.subject ==> s.nodes[k] == sim.nodes[k]
    ensures e.active == 0 ==> s.alphaTarget == 0.0
    ensures e.active != 0 ==> s.alphaTarget == sim.alphaTarget
    ensures s.restarts == sim.restarts
  {
    var n := sim.nodes[e.subject];
    var released := sim.nodes[e.subject := n.(fx := None, fy := None)];
    if e.active == 0 then sim.(nodes := released, alphaTarget := 0.0)
    else sim.(nodes := released)
  }

  /** The drag behaviour: dispatches an event to its handler. */
  function OnDrag(sim: Simulation, e: DragEvent): (s: Simulation)
    requires e.subject < |sim.nodes|
    ensures |s.nodes| == |sim.nodes|
    ensures forall k :: 0 <= k < |sim.nodes| && k != e.subject ==> s.nodes[k] == sim.nodes[k]
    ensures e.phase == Start ==> s.nodes[e.subject].fx == Some(sim.nodes[e.subject].x)
                                 && s.nodes[e.subject].fy == Some(sim.nodes[e.subject].y)
    ensures e.phase == Move ==> s.nodes[e.subject].fx == Some(e.x) && s.nodes[e.subject].fy == Some(e.y)
                                && s.alphaTarget == sim.alphaTarget && s.restarts == sim.restarts
    ensures e.phase == End ==> s.nodes[e.subject].fx.None? && s.nodes[e.subject].fy.None?
    ensures e.phase != Start ==> s.restarts == sim.restarts
  {
    match e.phase
    case Start => DragStarted(sim, e)
    case Move => Dragged(sim, e)
    case End => DragEnded(sim, e)
  }

  /** Every event of `events` names a node of a simulation with `count` nodes. */
  predicate SubjectsWithin(events: seq<DragEvent>, count: nat)
  {
    forall k :: 0 <= k < |events| ==> events[k].subject < count
  }

  /** The simulation after a sequence of drag events. */
  function Run(sim: Simulation, events: seq<DragEvent>): (s: Simulation)
    requires SubjectsWithin(events, |sim.nodes|)
    ensures |s.nodes| == |sim.nodes|
    decreases |events|
  {
    if events == [] then sim
    else Run(OnDrag(sim, events[0]), events[1..])
  }

  /** Drag handlers never leave a node with only one pin coordinate set. */
  lemma DragKeepsPinsPaired(sim: Simulation, e: DragEvent)
    requires e.subject < |sim.nodes|
    requires forall k :: 0 <= k < |sim.nodes| ==> PinsPaired(sim.nodes[k])
    ensures forall k :: 0 <= k < |sim.nodes| ==> PinsPaired(OnDrag(sim, e).nodes[k])
  {
  }

  /** Running two event sequences one after the other is running their
      concatenation. */
  lemma {:induction false} RunAppend(sim: Simulation, a: seq<DragEvent>, b: seq<DragEvent>)
    requires SubjectsWithin(a + b, |sim.nodes|)
    ensures SubjectsWithin(a, |sim.nodes|) && SubjectsWithin(b, |sim.nodes|)
    ensures Run(sim, a + b) == Run(Run(sim, a), b)
    decreases |a|
  {
    assert forall k :: 0 <= k < |a| ==> a[k] == (a + b)[k];
    assert forall k :: 0 <= k < |b| ==> b[k] == (a + b)[|a| + k];
    if a == [] {
      assert a + b == b;
    } else {
      assert (a + b)[0] == a[0];
      assert (a + b)[1..] == a[1..] + b;
      RunAppend(OnDrag(sim, a[0]), a[1..], b);
      assert Run(sim, a + b) == Run(OnDrag(sim, a[0]), a[1..] + b);
    }
  }

  /** Each event moves node `i` under the pointer. */
  predicate MovesOf(moves: seq<DragEvent>, i: nat)
  {
    forall k :: 0 <= k < |moves| ==> moves[k].phase == Move && moves[k].subject == i
  }

  /** While the pointer is held, the dragged node is pinned at the latest
      pointer position (or where it was, before the first move); its
      simulated position, every other node and the simulation's energy
      settings are untouched by the moves. */
  lemma {:induction false} MovesFollowPointer(sim: Simulation, i: nat, moves: seq<DragEvent>)
    requires i < |sim.nodes|
    requires MovesOf(moves, i)
    ensures SubjectsWithin(moves, |sim.nodes|)
    ensures var s := Run(sim, moves);
            && s.nodes[i].x == sim.nodes[i].x && s.nodes[i].y == sim.nodes[i].y
            && (moves == [] ==> s.nodes[i] == sim.nodes[i])
            && (moves != [] ==> s.nodes[i].fx == Some(moves[|moves| - 1].x) && s.nodes[i].fy == Some(moves[|moves| - 1].y))
            && (forall k :: 0 <= k < |sim.nodes| && k != i ==> s.nodes[k] == sim.nodes[k])
            && s.alphaTarget == sim.alphaTarget && s.restarts == sim.restarts
    decreases |moves|
  {
    if moves != [] {
      var next := Dragged(sim, moves[0]);
      assert MovesOf(moves[1..], i);
      MovesFollowPointer(next, i, moves[1..]);
      if |moves| > 1 {
        assert moves[1..][|moves[1..]| - 1] == moves[|moves| - 1];
      }
    }
  }

  /** The drag gesture on node `i`: a start, some moves, an end. */
  function Gesture(i: nat, startActive: nat, moves: seq<DragEvent>, endActive: nat, endX: int, endY: int): (events: seq<DragEvent>)
  {
    [DragEvent(Start, i, startActive, 0, 0)] + moves + [DragEvent(End, i, endActive, endX, endY)]
  }

  /** Run over a complete, lone drag gesture, the handlers hand the node back
      to physics: its pin is released, the handlers leave its simulated
      position and every other node as before, and they restarted the
      simulation once and set its alpha target back to 0. The ticks the
      restart sets off, which move the nodes, are not modelled. */
  lemma LoneGestureReleases(sim: Simulation, i: nat, moves: seq<DragEvent>, endX: int, endY: int)
    requires i < |sim.nodes|
    requires MovesOf(moves, i)
    ensures var events := Gesture(i, 0, moves, 0, endX, endY);
            && SubjectsWithin(events, |sim.nodes|)
            && var s := Run(sim, events);
               && s.nodes[i] == sim.nodes[i].(fx := None, fy := None)
               && (forall k :: 0 <= k < |sim.nodes| && k != i ==> s.nodes[k] == sim.nodes[k])
               && s.alphaTarget == 0.0
               && s.restarts == sim.restarts + 1
  {
    var start := DragEvent(Start, i, 0, 0, 0);
    var end := DragEvent(End, i, 0, endX, endY);
    var events := Gesture(i, 0, moves, 0, endX, endY);
    assert events == ([start] + moves) + [end];
    assert SubjectsWithin(events, |sim.nodes|) by {
      forall k | 0 <= k < |events| ensures events[k].subject < |sim.nodes| {
        if 0 < k < |events| - 1 {
          assert events[k] == moves[k - 1];
        }
      }
    }
    RunAppend(sim, [start] + moves, [end]);
    RunAppend(sim, [start], moves);
    var started := Run(sim, [start]);
    assert started == DragStarted(sim, start);
    MovesFollowPointer(started, i, moves);
    var held := Run(started, moves);
    assert Run(held, [end]) == DragEnded(held, end);
  }
}

=== FILE: pipeline.dfy ===
/** The backend's payload as the view receives it: everything
    `get_related_words` builds is accepted and drawn, with the query as the
    highlighted origin. */
module Pipeline {
  import opened Wrappers
  import opened Graph
  import opened GraphGenerator
  import opened KnowledgeGraph

  /** The JSON payload as the view's `data` prop: both arrays present. */
  function AsGraphData(p: Payload): (d: GraphData)
    ensures d.nodes == Some(p.nodes) && d.links == Some(p.links)
  {
    GraphData(Some(p.nodes), Some(p.links))
  }

  /** A payload whose first node has id `origin` and whose links all name
      nodes is accepted and drawn in full, and its highlighted circles are
      exactly the nodes with id `origin`. */
  lemma OriginPayloadIsDrawn(p: Payload, origin: string, view: View)
    requires |p.nodes| > 0 && p.nodes[0].id == origin && LinksResolve(p)
    requires view.svg.Some?
    ensures var v := Render(Some(AsGraphData(p)), view);
            && IsValidData(AsGraphData(p))
            && v == View(None, Some(Draw(p.nodes, p.links)))
            && forall k :: 0 <= k < |p.nodes| ==> (Highlighted(v.svg.value.circles[k]) <==> p.nodes[k].id == origin)
  {
  }

  /** Whatever the model replies, the built payload passes the view's
      structure check, every link names a node so the force layout accepts
      it, and it is drawn without error with one circle per reply line plus
      the query's; the highlighted circles are exactly the nodes whose id is
      the query, the first among them. */
  lemma GeneratedPayloadIsDrawn(query: string, reply: string, view: View)
    requires view.svg.Some?
    ensures var p := GetRelatedWords(query, reply);
            var v := Render(Some(AsGraphData(p)), view);
            && IsValidData(AsGraphData(p))
            && v.error.None?
            && |v.svg.value.circles| == |ReplyLines(reply)| + 1
            && Highlighted(v.svg.value.circles[0])
            && forall k :: 0 <= k < |p.nodes| ==> (Highlighted(v.svg.value.circles[k]) <==> p.nodes[k].id == query)
  {
    var p := GetRelatedWords(query, reply);
    GeneratedLinksResolve(query, reply);
    OriginPayloadIsDrawn(p, query, view);
  }
}

=== FILE: text.dfy ===
/** The Python string operations the payload builder relies on:
    `str.strip()` without arguments, `str.split('\n')` and `'\n'.join(...)`. */
module Text {
  import opened Chars

  /** Every character of `s` is whitespace. */
  predicate AllSpace(s: string)
  {
    forall k :: 0 <= k < |s| ==> IsSpace(s[k])
  }

  /** `needle` occurs somewhere in `hay` as a contiguous run (Python's `in` on strings). */
  predicate Contains(hay: string, needle: string)
  {
    exists i :: 0 <= i <= |hay| && needle <= hay[i..]
  }

  /** `str.lstrip()`: drops the leading whitespace run. */
  function TrimStart(s: string): (r: string)
    ensures |r| <= |s|
    ensures r != [] ==> !IsSpace(r[0])
  {
    if |s| > 0 && IsSpace(s[0]) then TrimStart(s[1..]) else s
  }

  /** What `TrimStart` drops is whitespace, and what it keeps is the rest of
      the string. */
  lemma {:induction false} TrimStartIsSuffix(s: string)
    ensures var r := TrimStart(s);
            r == s[|s| - |r|..] && AllSpace(s[..|s| - |r|])
  {
    if |s| > 0 && IsSpace(s[0]) {
      TrimStartIsSuffix(s[1..]);
      var r := TrimStart(s[1..]);
      assert s[1..][|s| - 1 - |r|..] == s[|s| - |r|..];
      assert s[..|s| - |r|] == [s[0]] + s[1..][..|s| - 1 - |r|];
    }
  }

  /** `str.rstrip()`: drops the trailing whitespace run. */
  function TrimEnd(s: string): (r: string)
    ensures |r| <= |s|
    ensures r != [] ==> !IsSpace(r[|r| - 1])
  {
    if |s| > 0 && IsSpace(s[|s| - 1]) then TrimEnd(s[..|s| - 1]) else s
  }

  /** What `TrimEnd` drops is whitespace, and what it keeps is the start of
      the string. */
  lemma {:induction false} TrimEndIsPrefix(s: string)
    ensures var r := TrimEnd(s);
            r == s[..|r|] && AllSpace(s[|r|..])
  {
    if |s| > 0 && IsSpace(s[|s| - 1]) {
      TrimEndIsPrefix(s[..|s| - 1]);
      var r := TrimEnd(s[..|s| - 1]);
      assert s[..|s| - 1][..|r|] == s[..|r|];
      assert s[|r|..] == s[..|s| - 1][|r|..] + [s[|s| - 1]];
    }
  }

  /** `r` is a contiguous piece of `s` with only whitespace cut off on either
      side. */
  predicate StrippedFrom(s: string, r: string)
  {
    exists i :: 0 <= i <= |s| - |r| && r == s[i..i + |r|] && AllSpace(s[..i]) && AllSpace(s[i + |r|..])
  }

  /** `str.strip()`: the result neither starts nor ends with whitespace. */
  function Strip(s: string): (r: string)
    ensures |r| <= |s|
    ensures r != [] ==> !IsSpace(r[0]) && !IsSpace(r[|r| - 1])
  {
    var t := TrimStart(s);
    TrimEndIsPrefix(t);
    TrimEnd(t)
  }

  /** `strip()` cuts off only whitespace, on either side, and keeps a
      contiguous piece of the string. */
  lemma StripRemovesOnlyWhitespace(s: string)
    ensures StrippedFrom(s, Strip(s))
  {
    var t := TrimStart(s);
    var r := TrimEnd(t);
    TrimStartIsSuffix(s);
    TrimEndIsPrefix(t);
    var i := |s| - |t|;
    assert r == s[i..i + |r|];
    assert AllSpace(s[..i]);
    assert s[i + |r|..] == t[|r|..];
    assert AllSpace(s[i + |r|..]);
  }

  /** Position of the first line feed of `s`. */
  function FirstLineFeed(s: string): (i: nat)
    requires '\n' in s
    ensures i < |s| && s[i] == '\n'
    ensures forall j :: 0 <= j < i ==> s[j] != '\n'
  {
    if s[0] == '\n' then 0
    else
      assert s == [s[0]] + s[1..];
      FirstLineFeed(s[1..]) + 1
  }

  /** `str.split('\n')`: the pieces of `s` between line feeds, in order. There
      is always one more piece than there are line feeds, and no piece
      contains a line feed. */
  function Split(s: string): (r: seq<string>)
    ensures |r| == multiset(s)['\n'] + 1
    ensures forall k :: 0 <= k < |r| ==> '\n' !in r[k]
    decreases |s|
  {
    if '\n' !in s then
      assert '\n' !in multiset(s);
      [s]
    else
      var i := FirstLineFeed(s);
      assert s == s[..i] + [s[i]] + s[i + 1..];
      assert '\n' !in s[..i];
      assert '\n' !in multiset(s[..i]);
      [s[..i]] + Split(s[i + 1..])
  }

  /** `'\n'.join(parts)`. */
  function Join(parts: seq<string>): (s: string)
  {
    if |parts| == 0 then []
    else if |parts| == 1 then parts[0]
    else parts[0] + "\n" + Join(parts[1..])
  }

  /** Stripping a string that already neither starts nor ends with whitespace
      changes nothing. */
  lemma StripTrimmed(s: string)
    requires s != [] ==> !IsSpace(s[0]) && !IsSpace(s[|s| - 1])
    ensures Strip(s) == s
  {
  }

  /** Stripping is idempotent. */
  lemma StripIdempotent(s: string)
    ensures Strip(Strip(s)) == Strip(s)
  {
    StripTrimmed(Strip(s));
  }

  /** Joining a piece in front of at least one more piece puts a line feed
      between them. */
  lemma JoinCons(head: string, tail: seq<string>)
    requires |tail| >= 1
    ensures Join([head] + tail) == head + "\n" + Join(tail)
  {
    assert ([head] + tail)[1..] == tail;
  }

  /** Joining the pieces of a split gives the original string back. */
  lemma {:induction false} JoinSplit(s: string)
    ensures Join(Split(s)) == s
    decreases |s|
  {
    if '\n' in s {
      var i := FirstLineFeed(s);
      var line, rest := s[..i], s[i + 1..];
      assert Split(s) == [line] + Split(rest);
      JoinSplit(rest);
      JoinCons(line, Split(rest));
      assert Join(Split(s)) == line + "\n" + rest;
      assert s == line + "\n" + rest;
    } else {
      assert Split(s) == [s];
    }
  }

  /** Splitting a line followed by a line feed yields that line followed by
      the pieces of the rest. */
  lemma SplitLine(p: string, rest: string)
    requires '\n' !in p
    ensures Split(p + "\n" + rest) == [p] + Split(rest)
  {
    var s := p + "\n" + rest;
    assert forall j :: 0 <= j < |p| ==> s[j] == p[j];
    assert s[|p|] == '\n';
    assert FirstLineFeed(s) == |p|;
    assert s[..|p|] == p && s[|p| + 1..] == rest;
  }

  /** Splitting a join of line-feed-free pieces gives the pieces back. */
  lemma {:induction false} SplitJoin(parts: seq<string>)
    requires |parts| >= 1
    requires forall k :: 0 <= k < |parts| ==> '\n' !in parts[k]
    ensures Split(Join(parts)) == parts
  {
    if |parts| == 1 {
    } else {
      SplitJoin(parts[1..]);
      SplitLine(parts[0], Join(parts[1..]));
      assert [parts[0]] + parts[1..] == parts;
    }
  }
}

=== FILE: utils.dfy ===
/** The backend helpers: `sanitize_input`, a character filter over user input,
    and `get_env_variable`, a lookup in the process environment. */
module Utils {
  import opened Chars
  import opened Text
  import opened Wrappers

  /** A character `sanitize_input` keeps: alphanumeric or whitespace. */
  predicate Kept(c: char)
  {
    IsAlnum(c) || IsSpace(c)
  }

  /** `a` occurs in `b` with its characters in the same order, not
      necessarily adjacent. */
  predicate IsSubsequence(a: string, b: string)
    decreases |b|
  {
    if a == [] then true
    else if b == [] then false
    else if a[0] == b[0] then IsSubsequence(a[1..], b[1..])
    else IsSubsequence(a, b[1..])
  }

  /** `sanitize_input`: drops every character that is neither alphanumeric nor
      whitespace. The result is no longer than the input and holds only such
      characters. */
  function SanitizeInput(s: string): (r: string)
    ensures |r| <= |s|
    ensures forall k :: 0 <= k < |r| ==> Kept(r[k])
  {
    if s == [] then []
    else if Kept(s[0]) then [s[0]] + SanitizeInput(s[1..])
    else SanitizeInput(s[1..])
  }

  /** Each kept character occurs in the output exactly as often as in the
      input; every other character does not occur at all. */
  lemma {:induction false} SanitizeCounts(s: string)
    ensures forall c :: multiset(SanitizeInput(s))[c] == if Kept(c) then multiset(s)[c] else 0
  {
    if s != [] {
      SanitizeCounts(s[1..]);
      assert s == [s[0]] + s[1..];
      assert multiset(s) == multiset{s[0]} + multiset(s[1..]);
      if Kept(s[0]) {
        assert multiset(SanitizeInput(s)) == multiset{s[0]} + multiset(SanitizeInput(s[1..]));
      }
    }
  }

  /** The output is an order-preserving subsequence of the input. */
  lemma {:induction false} SanitizeIsSubsequence(s: string)
    ensures IsSubsequence(SanitizeInput(s), s)
  {
    if s != [] {
      SanitizeIsSubsequence(s[1..]);
      var rest := SanitizeInput(s[1..]);
      if !Kept(s[0]) && rest != [] {
        assert Kept(rest[0]);
      }
    }
  }

  /** The output equals the input exactly when every input character is kept. */
  lemma {:induction false} SanitizeIdentity(s: string)
    ensures SanitizeInput(s) == s <==> forall k :: 0 <= k < |s| ==> Kept(s[k])
  {
    if s != [] && forall k :: 0 <= k < |s| ==> Kept(s[k]) {
      var tail := s[1..];
      assert forall k :: 0 <= k < |tail| ==> Kept(tail[k]) by {
        forall k | 0 <= k < |tail| ensures Kept(tail[k]) {
          assert tail[k] == s[k + 1];
        }
      }
      SanitizeIdentity(tail);
      assert Kept(s[0]);
      assert SanitizeInput(s) == [s[0]] + SanitizeInput(tail) == [s[0]] + tail;
      assert [s[0]] + tail == s;
    }
  }

  /** Sanitising twice is the same as sanitising once. */
  lemma SanitizeIdempotent(s: string)
    ensures SanitizeInput(SanitizeInput(s)) == SanitizeInput(s)
  {
    SanitizeIdentity(SanitizeInput(s));
  }

  /** Sanitising distributes over concatenation. */
  lemma {:induction false} SanitizeConcat(a: string, b: string)
    ensures SanitizeInput(a + b) == SanitizeInput(a) + SanitizeInput(b)
  {
    if a == [] {
      assert a + b == b;
    } else {
      var ab := a + b;
      assert ab[0] == a[0];
      assert ab[1..] == a[1..] + b;
      SanitizeConcat(a[1..], b);
      if Kept(a[0]) {
        calc {
          SanitizeInput(ab);
          [a[0]] + SanitizeInput(a[1..] + b);
          [a[0]] + (SanitizeInput(a[1..]) + SanitizeInput(b));
          ([a[0]] + SanitizeInput(a[1..])) + SanitizeInput(b);
        }
      } else {
        assert SanitizeInput(ab) == SanitizeInput(a[1..] + b);
      }
    }
  }

  /** The `EnvironmentError` `get_env_variable` raises. */
  datatype EnvError = EnvironmentError(message: string)

  const MissingVariablePrefix: string := "必要な環境変数 "
  const MissingVariableSuffix: string := " が設定されていません。"

  /** `get_env_variable` over an environment given as a map: the variable's
      value when it is set, otherwise an `EnvironmentError` whose message
      names the variable. */
  function GetEnvVariable(env: map<string, string>, name: string): (r: Result<string, EnvError>)
    ensures r.Success? <==> name in env
    ensures r.Success? ==> r.value == env[name]
    ensures r.Failure? ==> Contains(r.error.message, name)
  {
    if name in env then
      Success(env[name])
    else
      var message := MissingVariablePrefix + name + MissingVariableSuffix;
      assert name <= message[|MissingVariablePrefix|..];
      Failure(EnvironmentError(message))
  }
}

=== FILE: wrappers.dfy ===
/** A value that may be absent (a JavaScript `null`/`undefined`, a Python
    `None`), and the outcome of an operation that may raise. */
module Wrappers {

  /** A value that may be missing. */
  datatype Option<+T> = None | Some(value: T)

  /** Either a computed value or the error an operation raised. */
  datatype Result<+T, +E> = Success(value: T) | Failure(error: E)
}
